=== FILE: README.md ===
# TFL league bot: match scheduling, modelled in Dafny

The TFL Discord bot keeps a league schedule in a Google Sheet ("League & Cup
Schedule"). This project models what `main.py` decides:

- `normalize_div`: a division name is lower-cased and its spaces, hyphens and dots are removed before division names are compared.
- `/termin` and its form (`TerminModal.on_submit`): the date/time field must hold at least two tokens. The date and time must parse. Both player names, stripped and lower-cased, must be keys of the player-to-Twitch map, and player 1 is checked first. An accepted form creates one scheduled event and appends one seven-cell row. The row's last cell is the multistream link.
- `/today`: lists the data rows (never the header) that have at least seven cells and whose stripped date cell equals today's date string. They are ordered by (time, division).
- `zeige_geplante_spiele`, used by `/div1`-`/div5`, `/cup` and `/alle`: lists the upcoming matches. It skips the header, short rows, rows whose date does not parse or lies before today, and rows of another division. The rest are sorted by start.
- `/add`: stores `name.strip().lower()` → `twitch.strip()` in the player map.

Files:

- `wrappers.dfy`: `Option` and `Result`.
- `text.dfy` (module `Text`): the Python string builtins used, i.e. `isspace`, `lower`, `strip()`, `split()` and `replace(c, "")`.
- `lists.dfy` (module `Lists`): Python's stable `list.sort(key=...)` and `<` on strings and on pairs. The sort is modelled as an insertion sort, with its result proved ordered, a permutation and stable.
- `tfl_bot.dfy` (module `TflBot`): the bot's logic. The process-wide state (`TWITCH_MAP`, the worksheet, the guild's scheduled events) is the class `Bot`. The form check and both listings are functions. The handler's early returns are the methods `Bot.Check` and `Bot.CheckPlayersOf`, proved to reach the function's outcome, and the listing loop of `zeige_geplante_spiele` is the method `ShowPlanned`.

Abstractions. The worksheet is a sequence of rows, each a sequence of cell
strings, header first. Today's date is a parameter: the string `%d.%m.%Y`
gives. `strptime` is a function parameter from text to `Option<int>`, with
minutes for date and time and days for a date alone.

`main.py` does not parse: lines 89-90 are indented deeper than line 88.
The model reads them as statements at the level of line 88, which is evidently
what was meant.

## Model

| member | source | states |
|---|---|---|
| `TflBot.NormalizeDiv` | main.py:69-70 | the normalised name contains no space, hyphen or dot, and holds every other character of the lower-cased name as often as it occurs there |
| `TflBot.NormalizeDivKeeps` | main.py:69-70 | a character other than space, hyphen and dot stays, lower-cased. With `NormalizeDivAppend` and `NormalizeDivSeparator`, this determines the result character by character |
| `TflBot.NormalizeDivShape` | main.py:69-70 | a normalised division name contains no space, hyphen or dot and no upper-case letter |
| `TflBot.NormalizeDivIdempotent` | main.py:69-70 | normalising twice gives the same name as normalising once |
| `TflBot.NormalizeDivAppend` | main.py:69-70 | normalisation works character by character: it distributes over concatenation |
| `TflBot.NormalizeDivIgnoresSeparators` | main.py:69-70 | names that differ only by an extra space, hyphen or dot, or by letter case, compare equal in the division filter |
| `TflBot.PlayerKey` | main.py:96-97 | a lookup key has no upper-case letter and no whitespace at either end |
| `TflBot.PlayerKeyIdempotent` | main.py:96-97 | the lookup key `strip().lower()` of a key is that key, so a name stored by `/add` is found again when typed as stored |
| `TflBot.CheckTermin` | main.py:82-108 | format error exactly when the date/time field has fewer than two tokens; parse failure next; unknown player 1 before unknown player 2; accepted exactly when all checks pass |
| `TflBot.CheckTerminEntry` | main.py:106-128 | an accepted form yields a 7-cell row [division, date, time, player 1, player 2, mode (all stripped), link]. Date and time are the first two tokens, and the link is `https://multistre.am/<twitch1>/<twitch2>/layout4`. The event has that location and runs from the parsed start for one hour |
| `TflBot.PaddedDateTimeSplit` | main.py:82 | "date time" with whitespace before and after it gives exactly the tokens date and time after `strip().split()` |
| `TflBot.CheckTerminKeepsDateAndTime` | main.py:82-87 | a field typed as "DD.MM.YYYY HH:MM", with any whitespace before and any whitespace after it (independently), stores exactly that date and time in columns B and C |
| `TflBot.Bot.Submit` | main.py:80-131 | an accepted form appends exactly one event and one row, the ones `CheckTermin` describes. A refused form changes neither and replies with the reason. The player map is unchanged |
| `TflBot.Bot.Check` | main.py:82-90 | the handler's checks with their early returns (too few tokens, then an unparsable date/time, then the player checks) reach exactly the outcome `CheckTermin` states |
| `TflBot.Bot.CheckPlayersOf` | main.py:96-128 | player 1 unknown returns first, then player 2 unknown; otherwise the event and the seven-cell row. Together with `Check`, this is the outcome `CheckTermin` states |
| `TflBot.Bot.Add` | main.py:233-237 | the map afterwards is the old map with `strip().lower()` of the name mapped to the stripped handle; every other entry, the sheet and the events are unchanged |
| `TflBot.Bot.constructor` | main.py:23-61 | the bot starts with the initial player map, the given sheet and no events |
| `TflBot.AddedPlayerRecognised` | main.py:96-108 | after `/add`, a form naming that player (as typed, or as echoed by `/add`) passes the player-1 check and streams from the handle given |
| `TflBot.DataRows` | main.py:150 | the rows considered are exactly those below the header |
| `TflBot.TodayRows` | main.py:150 | a row is kept exactly when it is among the given rows, has at least seven cells and its stripped date equals today's |
| `TflBot.TodayRowsAppend` | main.py:150 | the comprehension keeps sheet order: the rows selected from two blocks of rows are those of the first block followed by those of the second |
| `TflBot.Today` | main.py:146-162 | `/today` never fails, and a listing holds as many rows as the comprehension selected, at least one |
| `TflBot.TodaySelects` | main.py:148-153 | `/today` never fails. It replies "none" exactly when no data row is for today. Otherwise it lists exactly the data rows for today |
| `TflBot.TodayOrder` | main.py:156 | the `/today` list is a permutation of the selected rows, ordered by (time, division) and stable among equal keys |
| `TflBot.Upcoming` | main.py:169-180 | a match is collected exactly when it is the projection (date, time, division, players, mode, link) of an upcoming row |
| `TflBot.UpcomingAppend` | main.py:169-180 | the loop keeps sheet order: the matches collected from two blocks of rows are those of the first block followed by those of the second |
| `TflBot.Planned` | main.py:164-192 | a listing holds as many matches as the loop collected, at least one |
| `TflBot.ShowPlanned` | main.py:164-186 | the loop and sort produce the listing `Planned` describes |
| `TflBot.UpcomingOfSheet` | main.py:169-180 | the collected matches are the projections of upcoming rows below the header |
| `TflBot.PlannedSelects` | main.py:169-184 | a division listing replies "none" exactly when no data row is upcoming. Otherwise it lists only projections of upcoming data rows, never the header, a short row, a row whose date is unparsable or before today, or another division's row |
| `TflBot.SortByStart` | main.py:186 | the sort fails exactly when some collected match's date and time do not parse together. It never replies "none", and a sorted listing is a permutation of the collected matches |
| `TflBot.PlannedOrder` | main.py:186 | the listing fails exactly when an upcoming match's date and time do not parse together. Otherwise it is ascending by start and stable among equal starts |
| `TflBot.BadTimeHidesListing` | main.py:173-186 | one upcoming row with an unparsable time makes the whole listing fail, although another upcoming row could be listed |
| `TflBot.PlannedSkippingBadTimesCorrect` | main.py:173-186 | the corrected listing never fails. It replies "none" exactly when no upcoming data row has a start that parses. Otherwise the listing is a permutation of the collected matches whose start parses (duplicate rows are kept), ascending by start and stable among equal starts |
| `TflBot.SortParsableByStart` | main.py:186 | sorting matches whose starts all parse gives a permutation of them, ascending by start and stable among equal starts |
| `TflBot.PlannedSkippingBadTimesAgrees` | main.py:173-186 | wherever the listing as written does not fail, the corrected listing equals it |
| `TflBot.EnteredMatchListedToday` | main.py:120-150 | a match accepted for today's date is listed by `/today` once its row is appended below the header |
| `Text.SplitStrip` | main.py:82 | `s.strip().split()` gives the same tokens as `s.split()` |
| `Text.TwoTokensSplit` | main.py:75 | "date time" with one space between two non-blank tokens splits into exactly those two tokens |
| `Text.SplitWordThen` | main.py:82 | `split()` takes maximal runs: a token followed by a run of whitespace is one word, and splitting resumes after the run, so "01.02.2026   20:00" gives the two tokens |
| `Text.SplitKeepsNonSpace` | main.py:82 | `split()` drops only whitespace: its tokens, concatenated, are the non-whitespace characters of the input |
| `Text.StripLower` | main.py:96-97 | stripping and lower-casing commute |
| `Text.StripIdempotent` | main.py:234 | stripping twice is stripping once |
| `Lists.SortByMultiset` | main.py:156 | the keyed sort returns a permutation of its input |
| `Lists.SortBySorted` | main.py:156 | the keyed sort returns its input ordered by key |
| `Lists.SortByStable` | main.py:186 | the keyed sort keeps input order among elements with equal keys |
| `Lists.StrLtOrder` | main.py:156 | Python's `<` on strings is a strict total order, so sorting by (time, division) is well defined |

## Left out

- Discord calls are not modelled: the reply texts and embeds, modal display, command registration, `on_ready` and `client.run`. Replies are the `Reply` and `Listing` values; the scheduled event is the `ScheduledEvent` value the bot records.
- A Discord or Google Sheets call that raises is not modelled. In the source, the handler's catch-all turns it into an error reply. If `append_row` raises after the event was created, the event stays without a row.
- Discord rejects an embed with more than 25 fields. A `/today` or division listing with more than 25 matches (common for `/alle` over a season) therefore ends in the error reply in the source, while the model lists them all. `Today` and `TodaySelects` ("never fails"), `PlannedOrder` and `SortByStart` ("fails exactly when …") and `PlannedSkippingBadTimesCorrect` ("never fails") hold only for listings of at most 25 matches.
- Discord rejects a scheduled event whose start has already passed. For a form with a past date, the source then replies with the error and appends no row, while `CheckTermin` and `Bot.Submit` accept it.
- Discord rejects a scheduled event whose name is longer than 100 characters. The name (`EventName`) joins division, both players and mode, and the form fields accept longer text. For such a form the source replies with the error and appends no row, while `CheckTermin` and `Bot.Submit` accept it.
- `strptime`, `pytz` localisation and `datetime.now` are left abstract as described above. In particular, the model does not decide which texts parse (for example whether `1.2.2026` is accepted).
- `Text.Lower` covers ASCII and the Latin-1 capitals only. Other Unicode case mappings of `str.lower` are not modelled, including those that change a string's length.
- The Google Sheets connection and credentials are not modelled (main.py:63-66). Nor are the aiohttp API, the caches and the bot entry script (`api.py`, `shared.py`, `bot.py`) or the static tables of `config.py`.
- The repository's round-robin fixture generator is not part of this model. `main.py` does not contain it.
- `TflBot.Bot.constructor`: it does not prove that every key of the initial `TWITCH_MAP` is already in `strip().lower()` form. This is not proved: checking the 37 literals exceeds the verifier's resource limit. `AddedPlayerRecognised` covers the keys `/add` inserts.

## Findings

| source | as written | input that shows it | evidently intended | confidence | as-written member | corrected member |
|---|---|---|---|---|---|---|
| main.py:173-186 | rows whose date does not parse are skipped, but the sort key parses date and time together without a guard, so the `ValueError` reaches the catch-all and the whole command replies with an error | a sheet whose data rows are one future match at "20:00" and one future match with time cell "abends" (both in the division) | skip a match whose date and time do not parse, as for an unparsable date, and list the rest | medium, not executed | `TflBot.BadTimeHidesListing` | `TflBot.PlannedSkippingBadTimesCorrect` |

=== FILE: lists.dfy ===
/** Python's `list.sort(key=...)` and the orderings the bot sorts by: a stable
    sort that compares keys with `<` only, and `<` on strings and on pairs. */
module Lists {

  /** What a key ordering must be for sorting to be well defined: irreflexive,
      transitive, and relating any two distinct keys one way or the other. */
  ghost predicate StrictTotalOrder<K(!new)>(lt: (K, K) -> bool) {
    && (forall a :: !lt(a, a))
    && (forall a, b, c :: lt(a, b) && lt(b, c) ==> lt(a, c))
    && (forall a, b :: a == b || lt(a, b) || lt(b, a))
  }

  /** No later element has a smaller key than an earlier one. */
  ghost predicate SortedBy<T, K>(s: seq<T>, key: T -> K, lt: (K, K) -> bool) {
    forall i, j :: 0 <= i < j < |s| ==> !lt(key(s[j]), key(s[i]))
  }

  /** The elements of `s` whose key is `k`, in their order in `s`. */
  function WithKey<T, K(==)>(s: seq<T>, key: T -> K, k: K): seq<T> {
    if s == [] then [] else (if key(s[0]) == k then [s[0]] else []) + WithKey(s[1..], key, k)
  }

  /** Places `x` after every element whose key is not greater than its own. */
  function Insert<T, K>(x: T, s: seq<T>, key: T -> K, lt: (K, K) -> bool): (r: seq<T>)
  {
    if s == [] || lt(key(x), key(s[0])) then [x] + s
    else
      assert s == [s[0]] + s[1..];
      [s[0]] + Insert(x, s[1..], key, lt)
  }

  /** `s.sort(key=key)`: insertion of each element, first to last, into the
      sorted prefix. */
  function SortBy<T, K>(s: seq<T>, key: T -> K, lt: (K, K) -> bool): (r: seq<T>)
  {
    if s == [] then [] else Insert(s[|s| - 1], SortBy(s[..|s| - 1], key, lt), key, lt)
  }

  lemma {:induction false} SortByMultiset<T, K>(s: seq<T>, key: T -> K, lt: (K, K) -> bool)
    ensures multiset(SortBy(s, key, lt)) == multiset(s)
  {
    if s != [] {
      assert s == s[..|s| - 1] + [s[|s| - 1]];
      SortByMultiset(s[..|s| - 1], key, lt);
      InsertMultiset(s[|s| - 1], SortBy(s[..|s| - 1], key, lt), key, lt);
    }
  }

  lemma {:induction false} InsertMultiset<T, K>(x: T, s: seq<T>, key: T -> K, lt: (K, K) -> bool)
    ensures multiset(Insert(x, s, key, lt)) == multiset(s) + multiset{x}
  {
    if s != [] && !lt(key(x), key(s[0])) {
      assert s == [s[0]] + s[1..];
      InsertMultiset(x, s[1..], key, lt);
    }
  }

  lemma {:induction false} InsertSorted<T, K(!new)>(x: T, s: seq<T>, key: T -> K, lt: (K, K) -> bool)
    requires StrictTotalOrder(lt)
    requires SortedBy(s, key, lt)
    ensures SortedBy(Insert(x, s, key, lt), key, lt)
  {
    if s == [] || lt(key(x), key(s[0])) {
      var r := [x] + s;
      forall i, j | 0 <= i < j < |r|
        ensures !lt(key(r[j]), key(r[i]))
      {
        if i == 0 {
          var y := s[j - 1];
          assert r[j] == y;
          assert key(y) == key(s[0]) || lt(key(s[0]), key(y)) by {
            if j - 1 > 0 {
              assert !lt(key(y), key(s[0]));
            }
          }
          assert lt(key(x), key(y));
        } else {
          assert r[i] == s[i - 1] && r[j] == s[j - 1];
        }
      }
    } else {
      var tail := Insert(x, s[1..], key, lt);
      InsertSorted(x, s[1..], key, lt);
      InsertMultiset(x, s[1..], key, lt);
      var r := [s[0]] + tail;
      forall j | 0 <= j < |tail|
        ensures !lt(key(tail[j]), key(s[0]))
      {
        assert tail[j] in multiset(s[1..]) + multiset{x};
        if tail[j] != x {
          assert tail[j] in s[1..];
          var m :| 0 <= m < |s[1..]| && s[1..][m] == tail[j];
          assert s[m + 1] == tail[j];
        }
      }
      forall i, j | 0 <= i < j < |r|
        ensures !lt(key(r[j]), key(r[i]))
      {
        if i > 0 {
          assert r[i] == tail[i - 1] && r[j] == tail[j - 1];
        } else {
          assert r[j] == tail[j - 1];
        }
      }
    }
  }

  /** The result of sorting is ordered by key. */
  lemma {:induction false} SortBySorted<T, K(!new)>(s: seq<T>, key: T -> K, lt: (K, K) -> bool)
    requires StrictTotalOrder(lt)
    ensures SortedBy(SortBy(s, key, lt), key, lt)
  {
    if s != [] {
      SortBySorted(s[..|s| - 1], key, lt);
      InsertSorted(s[|s| - 1], SortBy(s[..|s| - 1], key, lt), key, lt);
    }
  }

  lemma {:induction false} WithKeyAppend<T, K>(a: seq<T>, b: seq<T>, key: T -> K, k: K)
    ensures WithKey(a + b, key, k) == WithKey(a, key, k) + WithKey(b, key, k)
  {
    if a != [] {
      assert (a + b)[1..] == a[1..] + b;
      WithKeyAppend(a[1..], b, key, k);
    } else {
      assert a + b == b;
    }
  }

  lemma {:induction false} WithKeyNone<T, K>(s: seq<T>, key: T -> K, k: K)
    requires forall i :: 0 <= i < |s| ==> key(s[i]) != k
    ensures WithKey(s, key, k) == []
  {
    if s != [] {
      WithKeyNone(s[1..], key, k);
    }
  }

  lemma {:induction false} InsertWithKey<T, K(!new)>(x: T, s: seq<T>, key: T -> K, lt: (K, K) -> bool, k: K)
    requires forall a :: !lt(a, a)
    requires SortedBy(s, key, lt)
    ensures WithKey(Insert(x, s, key, lt), key, k)
         == WithKey(s, key, k) + (if key(x) == k then [x] else [])
  {
    var xs := if key(x) == k then [x] else [];
    if s == [] {
      assert Insert(x, s, key, lt) == [x];
      assert WithKey([x], key, k) == xs + WithKey([], key, k) by {
        assert [x][1..] == [];
      }
    } else if lt(key(x), key(s[0])) {
      var r := [x] + s;
      assert Insert(x, s, key, lt) == r;
      assert r[0] == x && r[1..] == s;
      assert WithKey(r, key, k) == xs + WithKey(s, key, k);
      if key(x) == k {
        forall i | 0 <= i < |s|
          ensures key(s[i]) != k
        {
          if i > 0 {
            assert !lt(key(s[i]), key(s[0]));
          }
        }
        WithKeyNone(s, key, k);
      }
    } else {
      var head := if key(s[0]) == k then [s[0]] else [];
      var tail := Insert(x, s[1..], key, lt);
      var r := [s[0]] + tail;
      assert Insert(x, s, key, lt) == r;
      assert r[0] == s[0] && r[1..] == tail;
      assert WithKey(r, key, k) == head + WithKey(tail, key, k);
      assert WithKey(s, key, k) == head + WithKey(s[1..], key, k);
      InsertWithKey(x, s[1..], key, lt, k);
      assert head + (WithKey(s[1..], key, k) + xs) == (head + WithKey(s[1..], key, k)) + xs;
    }
  }

  /** Sorting is stable: the elements that share a key keep their input order. */
  lemma {:induction false} SortByStable<T, K(!new)>(s: seq<T>, key: T -> K, lt: (K, K) -> bool, k: K)
    requires StrictTotalOrder(lt)
    ensures WithKey(SortBy(s, key, lt), key, k) == WithKey(s, key, k)
  {
    if s != [] {
      var init, last := s[..|s| - 1], s[|s| - 1];
      assert SortBy(s, key, lt) == Insert(last, SortBy(init, key, lt), key, lt);
      SortByStable(init, key, lt, k);
      SortBySorted(init, key, lt);
      InsertWithKey(last, SortBy(init, key, lt), key, lt, k);
      assert s == init + [last];
      WithKeyAppend(init, [last], key, k);
      assert WithKey([last], key, k) == (if key(last) == k then [last] else []) by {
        assert [last][1..] == [];
      }
    }
  }

  /** Python's `<` on strings: code-point lexicographic order. */
  predicate StrLt(a: string, b: string) {
    if b == [] then false
    else if a == [] then true
    else if a[0] != b[0] then a[0] < b[0]
    else StrLt(a[1..], b[1..])
  }

  lemma {:induction false} StrLtIrreflexive(a: string)
    ensures !StrLt(a, a)
  {
    if a != [] {
      StrLtIrreflexive(a[1..]);
    }
  }

  lemma {:induction false} StrLtTransitive(a: string, b: string, c: string)
    requires StrLt(a, b) && StrLt(b, c)
    ensures StrLt(a, c)
  {
    if a != [] && a[0] == b[0] && b[0] == c[0] {
      StrLtTransitive(a[1..], b[1..], c[1..]);
    }
  }

  lemma {:induction false} StrLtTotal(a: string, b: string)
    ensures a == b || StrLt(a, b) || StrLt(b, a)
  {
    if a != [] && b != [] && a[0] == b[0] {
      StrLtTotal(a[1..], b[1..]);
      if a[1..] == b[1..] {
        assert a == [a[0]] + a[1..] && b == [b[0]] + b[1..];
      }
    }
  }

  /** `<` on strings is a strict total order. */
  lemma StrLtOrder()
    ensures StrictTotalOrder(StrLt)
  {
    forall a: string ensures !StrLt(a, a) {
      StrLtIrreflexive(a);
    }
    forall a: string, b: string, c: string | StrLt(a, b) && StrLt(b, c) ensures StrLt(a, c) {
      StrLtTransitive(a, b, c);
    }
    forall a: string, b: string ensures a == b || StrLt(a, b) || StrLt(b, a) {
      StrLtTotal(a, b);
    }
  }

  /** Python's `<` on a pair of strings: by the first component, then by the second. */
  predicate PairLt(a: (string, string), b: (string, string)) {
    StrLt(a.0, b.0) || (a.0 == b.0 && StrLt(a.1, b.1))
  }

  lemma PairLtOrder()
    ensures StrictTotalOrder(PairLt)
  {
    StrLtOrder();
  }

  predicate IntLt(a: int, b: int) {
    a < b
  }

  lemma IntLtOrder()
    ensures StrictTotalOrder(IntLt)
  {
  }
}

=== FILE: text.dfy ===
/** The Python string builtins the bot relies on: `str.isspace`, `str.lower`,
    `str.strip()`, `str.split()` (no arguments) and `str.replace(c, "")`. */
module Text {

  /** The characters Python 3 treats as whitespace (`str.isspace`), which are
      exactly those `strip()` and `split()` without arguments remove. */
  predicate IsSpace(c: char) {
    || c == ' '
    || ('\t' <= c <= '\r')
    || ('\U{1C}' <= c <= '\U{1F}')
    || c == '\U{85}' || c == '\U{A0}' || c == '\U{1680}'
    || ('\U{2000}' <= c <= '\U{200A}')
    || c == '\U{2028}' || c == '\U{2029}' || c == '\U{202F}' || c == '\U{205F}' || c == '\U{3000}'
  }

  predicate NoSpace(s: string) {
    forall i :: 0 <= i < |s| ==> !IsSpace(s[i])
  }

  predicate AllSpace(s: string) {
    forall i :: 0 <= i < |s| ==> IsSpace(s[i])
  }

  /** Upper-case letters whose lower-case form is one character further on by 32:
      ASCII A-Z and the Latin-1 capitals (the multiplication sign excluded). */
  predicate IsUpper(c: char) {
    ('A' <= c <= 'Z') || ('\U{C0}' <= c <= '\U{DE}' && c != '\U{D7}')
  }

  function LowerChar(c: char): (d: char)
    ensures !IsUpper(d)
    ensures !IsUpper(c) ==> d == c
    ensures IsSpace(d) == IsSpace(c)
  {
    if IsUpper(c) then (c as int + 32) as char else c
  }

  /** `s.lower()`, character by character. */
  function Lower(s: string): (r: string)
    ensures |r| == |s|
    ensures forall i :: 0 <= i < |r| ==> !IsUpper(r[i]) && IsSpace(r[i]) == IsSpace(s[i])
  {
    seq(|s|, i requires 0 <= i < |s| => LowerChar(s[i]))
  }

  lemma LowerIdempotent(s: string)
    ensures Lower(Lower(s)) == Lower(s)
  {
  }

  lemma LowerAppend(a: string, b: string)
    ensures Lower(a + b) == Lower(a) + Lower(b)
  {
  }

  /** Drops leading whitespace. */
  function TrimStart(s: string): (r: string)
    ensures |r| <= |s|
    ensures r == [] || !IsSpace(r[0])
  {
    if s != [] && IsSpace(s[0]) then TrimStart(s[1..]) else s
  }

  /** `TrimStart` cuts off a prefix made only of whitespace. */
  lemma {:induction false} TrimStartSuffix(s: string)
    ensures var r := TrimStart(s); r == s[|s| - |r|..] && AllSpace(s[..|s| - |r|])
  {
    if s != [] && IsSpace(s[0]) {
      TrimStartSuffix(s[1..]);
    }
  }

  /** Drops trailing whitespace. */
  function TrimEnd(s: string): (r: string)
    ensures |r| <= |s|
    ensures r == [] || !IsSpace(r[|r| - 1])
  {
    if s != [] && IsSpace(s[|s| - 1]) then TrimEnd(s[..|s| - 1]) else s
  }

  /** `TrimEnd` cuts off a suffix made only of whitespace. */
  lemma {:induction false} TrimEndPrefix(s: string)
    ensures var r := TrimEnd(s); r == s[..|r|] && AllSpace(s[|r|..])
  {
    if s != [] && IsSpace(s[|s| - 1]) {
      var init := s[..|s| - 1];
      TrimEndPrefix(init);
      var r := TrimEnd(init);
      assert s[..|r|] == init[..|r|];
      assert s[|r|..] == init[|r|..] + [s[|s| - 1]];
    }
  }

  /** `s.strip()`: the string without its leading and trailing whitespace. */
  function Strip(s: string): (r: string)
  {
    TrimEnd(TrimStart(s))
  }

  /** What `Strip` keeps neither starts nor ends with whitespace. */
  lemma StripEdges(s: string)
    ensures var r := Strip(s); r == [] || (!IsSpace(r[0]) && !IsSpace(r[|r| - 1]))
  {
    TrimEndPrefix(TrimStart(s));
  }

  /** What `Strip` keeps is a slice of the input with only whitespace cut off on
      either side, and it neither starts nor ends with whitespace. */
  lemma StripSlice(s: string)
    ensures var r := Strip(s);
      && (r == [] || (!IsSpace(r[0]) && !IsSpace(r[|r| - 1])))
      && exists i :: 0 <= i <= |s| - |r| && r == s[i..i + |r|] && AllSpace(s[..i]) && AllSpace(s[i + |r|..])
  {
    var t := TrimStart(s);
    var r := TrimEnd(t);
    var i := |s| - |t|;
    TrimStartSuffix(s);
    TrimEndPrefix(t);
    assert r == s[i..i + |r|];
    assert AllSpace(s[i + |r|..]) by {
      assert s[i + |r|..] == t[|r|..];
    }
  }

  /** A string that neither starts nor ends with whitespace is left alone. */
  lemma StripNoEdgeSpace(s: string)
    requires s == [] || (!IsSpace(s[0]) && !IsSpace(s[|s| - 1]))
    ensures Strip(s) == s
  {
  }

  lemma StripIdempotent(s: string)
    ensures Strip(Strip(s)) == Strip(s)
  {
    StripSlice(s);
    StripNoEdgeSpace(Strip(s));
  }

  lemma {:induction false} TrimStartLower(s: string)
    ensures TrimStart(Lower(s)) == Lower(TrimStart(s))
  {
    if s != [] {
      assert Lower(s)[1..] == Lower(s[1..]);
      if IsSpace(s[0]) {
        TrimStartLower(s[1..]);
      }
    }
  }

  lemma {:induction false} TrimEndLower(s: string)
    ensures TrimEnd(Lower(s)) == Lower(TrimEnd(s))
  {
    if s != [] {
      assert Lower(s)[..|s| - 1] == Lower(s[..|s| - 1]);
      if IsSpace(s[|s| - 1]) {
        TrimEndLower(s[..|s| - 1]);
      }
    }
  }

  /** Lower-casing never creates or removes whitespace, so it commutes with `strip()`. */
  lemma StripLower(s: string)
    ensures Strip(Lower(s)) == Lower(Strip(s))
  {
    TrimStartLower(s);
    TrimEndLower(TrimStart(s));
  }

  /** Length of the leading run of non-whitespace characters. */
  function WordEnd(t: string): (n: nat)
    ensures n <= |t|
    ensures NoSpace(t[..n])
    ensures n == |t| || IsSpace(t[n])
  {
    if t == [] || IsSpace(t[0]) then 0 else 1 + WordEnd(t[1..])
  }

  /** `s.split()`: the maximal runs of non-whitespace characters, in order. */
  function Split(s: string): (words: seq<string>)
    ensures forall k :: 0 <= k < |words| ==> words[k] != [] && NoSpace(words[k])
    decreases |s|
  {
    var t := TrimStart(s);
    if t == [] then []
    else
      var n := WordEnd(t);
      [t[..n]] + Split(t[n..])
  }

  /** The characters of `s` that are not whitespace, in order. */
  function NonSpace(s: string): string {
    if s == [] then [] else (if IsSpace(s[0]) then [] else [s[0]]) + NonSpace(s[1..])
  }

  function Concat(words: seq<string>): string {
    if words == [] then [] else words[0] + Concat(words[1..])
  }

  lemma {:induction false} NonSpaceAppend(a: string, b: string)
    ensures NonSpace(a + b) == NonSpace(a) + NonSpace(b)
  {
    if a != [] {
      assert (a + b)[1..] == a[1..] + b;
      NonSpaceAppend(a[1..], b);
    } else {
      assert a + b == b;
    }
  }

  lemma {:induction false} NonSpaceOfSpaces(s: string)
    requires AllSpace(s)
    ensures NonSpace(s) == []
  {
    if s != [] {
      NonSpaceOfSpaces(s[1..]);
    }
  }

  lemma {:induction false} NonSpaceOfWord(s: string)
    requires NoSpace(s)
    ensures NonSpace(s) == s
  {
    if s != [] {
      NonSpaceOfWord(s[1..]);
    }
  }

  /** Nothing but whitespace is lost by `split()`: the words, concatenated, are
      exactly the non-whitespace characters of the input. */
  lemma {:induction false} SplitKeepsNonSpace(s: string)
    ensures Concat(Split(s)) == NonSpace(s)
    decreases |s|
  {
    var t := TrimStart(s);
    var lead := s[..|s| - |t|];
    TrimStartSuffix(s);
    assert s == lead + t;
    NonSpaceAppend(lead, t);
    NonSpaceOfSpaces(lead);
    if t != [] {
      var n := WordEnd(t);
      SplitKeepsNonSpace(t[n..]);
      NonSpaceOfFirstWord(t);
    } else {
      assert Split(s) == [];
    }
  }

  lemma NonSpaceOfFirstWord(t: string)
    ensures NonSpace(t) == t[..WordEnd(t)] + NonSpace(t[WordEnd(t)..])
  {
    var n := WordEnd(t);
    assert t == t[..n] + t[n..];
    NonSpaceAppend(t[..n], t[n..]);
    NonSpaceOfWord(t[..n]);
  }

  lemma {:induction false} SplitTrimStart(s: string)
    ensures Split(TrimStart(s)) == Split(s)
  {
    assert TrimStart(TrimStart(s)) == TrimStart(s);
  }

  lemma {:induction false} SplitTrailingSpace(s: string, sp: string)
    requires AllSpace(sp)
    ensures Split(s + sp) == Split(s)
    decreases |s|
  {
    var t := TrimStart(s);
    var lead := |s| - |t|;
    TrimStartSuffix(s);
    if t == [] {
      assert s + sp == s[..lead] + sp;
      AllSpaceTrimStart(s + sp);
    } else {
      assert TrimStart(s + sp) == t + sp by { TrimStartAppend(s, sp); }
      var n := WordEnd(t);
      assert WordEnd(t + sp) == n by { WordEndAppend(t, sp); }
      assert (t + sp)[..n] == t[..n];
      assert (t + sp)[n..] == t[n..] + sp;
      SplitTrailingSpace(t[n..], sp);
    }
  }

  lemma {:induction false} AllSpaceTrimStart(s: string)
    requires AllSpace(s)
    ensures TrimStart(s) == []
  {
    if s != [] {
      AllSpaceTrimStart(s[1..]);
    }
  }

  lemma {:induction false} TrimStartAppend(s: string, sp: string)
    requires TrimStart(s) != []
    ensures TrimStart(s + sp) == TrimStart(s) + sp
  {
    if IsSpace(s[0]) {
      assert (s + sp)[1..] == s[1..] + sp;
      TrimStartAppend(s[1..], sp);
    }
  }

  lemma {:induction false} WordEndAppend(t: string, sp: string)
    requires AllSpace(sp)
    requires t != [] && !IsSpace(t[0])
    ensures WordEnd(t + sp) == WordEnd(t)
  {
    if |t| > 1 && !IsSpace(t[1]) {
      assert (t + sp)[1..] == t[1..] + sp;
      WordEndAppend(t[1..], sp);
    } else if |t| == 1 {
      assert (t + sp)[1..] == sp;
    } else {
      assert (t + sp)[1..] == t[1..] + sp;
    }
  }

  /** `s.strip().split()` and `s.split()` give the same words. */
  lemma SplitStrip(s: string)
    ensures Split(Strip(s)) == Split(s)
  {
    var t := TrimStart(s);
    var r := TrimEnd(t);
    TrimEndPrefix(t);
    assert t == r + t[|r|..];
    SplitTrailingSpace(r, t[|r|..]);
    SplitTrimStart(s);
  }

  /** A single non-blank token splits into itself. */
  lemma SplitWord(w: string)
    requires w != [] && NoSpace(w)
    ensures Split(w) == [w]
  {
    assert TrimStart(w) == w;
    WordEndOfWord(w, []);
    assert w + [] == w;
    assert w[..|w|] == w && w[|w|..] == [];
  }

  /** The expected input shape "DD.MM.YYYY HH:MM": two non-blank tokens separated
      by one space split back into exactly those two tokens. */
  lemma TwoTokensSplit(a: string, b: string)
    requires a != [] && NoSpace(a) && b != [] && NoSpace(b)
    ensures Split(a + " " + b) == [a, b]
  {
    var rest := " " + b;
    var s := a + rest;
    assert s == a + " " + b;
    assert TrimStart(s) == s;
    WordEndOfWord(a, rest);
    assert s[..|a|] == a && s[|a|..] == rest;
    assert Split(s) == [a] + Split(rest);
    assert TrimStart(rest) == TrimStart(b) by {
      assert rest[1..] == b;
    }
    assert TrimStart(b) == b;
    SplitTrimStart(rest);
    SplitWord(b);
  }

  /** Words are maximal runs: a token followed by a run of whitespace is one
      word, and splitting goes on after the run. */
  lemma SplitWordThen(w: string, sp: string, rest: string)
    requires w != [] && NoSpace(w) && sp != [] && AllSpace(sp)
    ensures Split(w + sp + rest) == [w] + Split(rest)
  {
    var tail := sp + rest;
    var s := w + tail;
    assert s == w + sp + rest;
    assert TrimStart(s) == s;
    WordEndOfWord(w, tail);
    assert s[..|w|] == w && s[|w|..] == tail;
    assert Split(s) == [w] + Split(tail);
    TrimStartSpaces(sp, rest);
    SplitTrimStart(tail);
    SplitTrimStart(rest);
  }

  lemma {:induction false} TrimStartSpaces(sp: string, rest: string)
    requires AllSpace(sp)
    ensures TrimStart(sp + rest) == TrimStart(rest)
  {
    if sp == [] {
      assert sp + rest == rest;
    } else {
      assert (sp + rest)[1..] == sp[1..] + rest;
      TrimStartSpaces(sp[1..], rest);
    }
  }

  lemma {:induction false} WordEndOfWord(w: string, rest: string)
    requires NoSpace(w)
    requires rest == [] || IsSpace(rest[0])
    ensures WordEnd(w + rest) == |w|
  {
    if w != [] {
      assert (w + rest)[1..] == w[1..] + rest;
      WordEndOfWord(w[1..], rest);
    } else {
      assert w + rest == rest;
    }
  }

  /** `s.replace(c, "")`: every occurrence of `c` deleted, the rest kept in order. */
  function Remove(s: string, c: char): (r: string)
    ensures |r| <= |s|
    ensures c !in r
  {
    if s == [] then [] else (if s[0] == c then [] else [s[0]]) + Remove(s[1..], c)
  }

  /** Only `c` is deleted: every other character keeps its number of occurrences. */
  lemma {:induction false} RemoveMultiset(s: string, c: char)
    ensures multiset(Remove(s, c)) == multiset(s)[c := 0]
  {
    if s != [] {
      assert s == [s[0]] + s[1..];
      RemoveMultiset(s[1..], c);
    }
  }

  lemma {:induction false} RemoveAppend(a: string, b: string, c: char)
    ensures Remove(a + b, c) == Remove(a, c) + Remove(b, c)
  {
    if a != [] {
      assert (a + b)[0] == a[0];
      assert (a + b)[1..] == a[1..] + b;
      RemoveAppend(a[1..], b, c);
    } else {
      assert a + b == b;
    }
  }

  lemma {:induction false} RemoveAbsent(s: string, c: char)
    requires c !in s
    ensures Remove(s, c) == s
  {
    if s != [] {
      RemoveAbsent(s[1..], c);
    }
  }
}

=== FILE: tfl_bot.dfy ===
/** The match-scheduling logic of the TFL league bot (main.py): division-name
    normalisation, the match-entry form, the `/today` and division listings read
    from the schedule sheet, and the `/add` command that extends the
    player-to-Twitch map. Discord, Google Sheets, the clock and `strptime` are
    outside the model: the sheet is a sequence of rows, today's date is a
    parameter, and date parsing is a function parameter. */
module TflBot {
  import opened Wrappers
  import opened Text
  import opened Lists

  /** One worksheet row: its cells, left to right. */
  type Row = seq<string>

  // ---------------------------------------------------------------------------
  // Division names
  // ---------------------------------------------------------------------------

  /** `normalize_div`: lower-cased, with every space, hyphen and dot deleted. */
  function NormalizeDiv(name: string): (r: string)
    ensures ' ' !in r && '-' !in r && '.' !in r
    ensures multiset(r) == multiset(Lower(name))[' ' := 0]['-' := 0]['.' := 0]
  {
    var r1 := Remove(Lower(name), ' ');
    var r2 := Remove(r1, '-');
    var r3 := Remove(r2, '.');
    RemoveMultiset(Lower(name), ' ');
    RemoveMultiset(r1, '-');
    RemoveMultiset(r2, '.');
    assert multiset(r3)[' '] == 0 && multiset(r3)['-'] == 0 && multiset(r3)['.'] == 0;
    r3
  }

  /** A normalised name holds no separator (`NormalizeDiv`'s own ensures) and
      no upper-case letter. */
  lemma NormalizeDivShape(name: string)
    ensures var r := NormalizeDiv(name);
      && ' ' !in r && '-' !in r && '.' !in r
      && forall i :: 0 <= i < |r| ==> !IsUpper(r[i])
  {
    var l := Lower(name);
    var r := NormalizeDiv(name);
    forall i | 0 <= i < |r|
      ensures !IsUpper(r[i])
    {
      assert r[i] in multiset(r);
      assert r[i] in multiset(l);
      var j :| 0 <= j < |l| && l[j] == r[i];
    }
  }

  /** Normalising an already normalised name changes nothing. */
  lemma NormalizeDivIdempotent(name: string)
    ensures NormalizeDiv(NormalizeDiv(name)) == NormalizeDiv(name)
  {
    var r := NormalizeDiv(name);
    NormalizeDivShape(name);
    assert Lower(r) == r;
    RemoveAbsent(r, ' ');
    RemoveAbsent(r, '-');
    RemoveAbsent(r, '.');
  }

  /** Normalisation works character by character, so it distributes over concatenation. */
  lemma NormalizeDivAppend(a: string, b: string)
    ensures NormalizeDiv(a + b) == NormalizeDiv(a) + NormalizeDiv(b)
  {
    LowerAppend(a, b);
    RemoveAppend(Lower(a), Lower(b), ' ');
    RemoveAppend(Remove(Lower(a), ' '), Remove(Lower(b), ' '), '-');
    RemoveAppend(Remove(Remove(Lower(a), ' '), '-'), Remove(Remove(Lower(b), ' '), '-'), '.');
  }

  lemma NormalizeDivSeparator(c: char)
    requires c == ' ' || c == '-' || c == '.'
    ensures NormalizeDiv([c]) == []
  {
    var l := Lower([c]);
    assert l == [c] by {
      assert !IsUpper(c);
      assert l[0] == LowerChar(c) == c;
    }
    var r := NormalizeDiv([c]);
    assert multiset(r) == multiset([c])[' ' := 0]['-' := 0]['.' := 0];
    assert |multiset(r)| == 0;
  }

  /** Every other character stays, lower-cased. With `NormalizeDivAppend` and
      `NormalizeDivSeparator` this fixes the name character by character. */
  lemma NormalizeDivKeeps(c: char)
    requires c != ' ' && c != '-' && c != '.'
    ensures NormalizeDiv([c]) == [LowerChar(c)]
  {
    var d := LowerChar(c);
    assert d != ' ' && d != '-' && d != '.' by {
      if IsUpper(c) {
        assert d as int == c as int + 32;
      }
    }
    var l := Lower([c]);
    assert l == [d] by {
      assert l[0] == d;
    }
    RemoveAbsent(l, ' ');
    RemoveAbsent(l, '-');
    RemoveAbsent(l, '.');
  }

  /** Two division names that differ only by an extra space, hyphen or dot, or
      by letter case, compare equal after normalisation. */
  lemma NormalizeDivIgnoresSeparators(a: string, b: string, c: char)
    requires c == ' ' || c == '-' || c == '.'
    ensures NormalizeDiv(a + [c] + b) == NormalizeDiv(a + b)
    ensures NormalizeDiv(Lower(a)) == NormalizeDiv(a)
  {
    NormalizeDivAppend(a + [c], b);
    NormalizeDivAppend(a, [c]);
    NormalizeDivAppend(a, b);
    NormalizeDivSeparator(c);
    assert NormalizeDiv(a) + [] == NormalizeDiv(a);
    LowerIdempotent(a);
  }

  // ---------------------------------------------------------------------------
  // Player names
  // ---------------------------------------------------------------------------

  /** The key a typed player name is looked up under: `name.strip().lower()`. */
  function PlayerKey(name: string): (r: string)
    ensures forall i :: 0 <= i < |r| ==> !IsUpper(r[i])
    ensures r == [] || (!IsSpace(r[0]) && !IsSpace(r[|r| - 1]))
  {
    StripEdges(name);
    Lower(Strip(name))
  }

  /** A key is its own key, so every key `/add` stores is found again by the
      same normalisation. */
  lemma PlayerKeyIdempotent(name: string)
    ensures PlayerKey(PlayerKey(name)) == PlayerKey(name)
  {
    var t := Strip(name);
    StripLower(t);
    StripIdempotent(name);
    LowerIdempotent(t);
  }

  /** The player-to-Twitch map the bot starts with (`TWITCH_MAP`). */
  const TWITCH_MAP: map<string, string> := map[
      "gnrb" := "gamenrockbuddys",
      "steinchen89" := "Steinchen89",
      "dirtbubble" := "DirtBubblE",
      "speeka" := "Speeka89",
      "link-q" := "linkq87",
      "derdasch" := "derdasch",
      "bumble" := "bumblebee86x",
      "leisureking" := "Leisureking",
      "tyrant242" := "Tyrant242",
      "loadpille" := "LoaDPille",
      "offiziell_alex2k6" := "offiziell_alex2k6",
      "dafritza" := "dafritza84",
      "teku361" := "TeKu361",
      "holysmoke" := "holysmoke",
      "wabnik" := "Wabnik",
      "sydraves" := "Sydraves",
      "roteralarm" := "roteralarm",
      "kromb" := "kromb4787",
      "ntapple" := "NTapple",
      "kico_89" := "Kico_89",
      "oeptown" := "oeptown",
      "mr__navigator" := "mr__navigator",
      "basdingo" := "Basdingo",
      "phoenix" := "phoenix_tyrol",
      "wolle" := "wolle_91",
      "mc_thomas3" := "mc_thomas3",
      "esto" := "estaryo90",
      "dafatbrainbug" := "dafatbrainbug",
      "funtreecake" := "FunTreeCake",
      "darpex" := "darpex3",
      "schieva96" := "Schieva96",
      "crackerito" := "crackerito88",
      "blackirave" := "blackirave",
      "nezil" := "Nezil7",
      "officermiaumiau" := "officermiaumiautwitch",
      "papaschland" := "Papaschland",
      "hideonbush" := "hideonbush1909"
    ]

  // ---------------------------------------------------------------------------
  // Match entry (`/termin` and its form)
  // ---------------------------------------------------------------------------

  /** The five text fields of the match-entry form, as typed. */
  datatype TerminForm = TerminForm(division: string, dateTime: string, player1: string, player2: string, mode: string)

  /** A Discord scheduled event; times are in minutes on the bot's local clock. */
  datatype ScheduledEvent = ScheduledEvent(name: string, description: string, start: int, end: int, location: string)

  /** What an accepted form produces: the event and the schedule-sheet row. */
  datatype Entry = Entry(event: ScheduledEvent, row: Row)

  /** Why a form was refused; each is a different ephemeral reply. */
  datatype TerminError =
    | FormatError                  // fewer than two date/time tokens
    | EntryFailed                  // the date/time did not parse (the handler's catch-all)
    | UnknownPlayer1(input: string)
    | UnknownPlayer2(input: string)

  /** The scheduled event lasts one hour. */
  const EVENT_MINUTES := 60

  function MultistreamUrl(twitch1: string, twitch2: string): string {
    "https://multistre.am/" + twitch1 + "/" + twitch2 + "/layout4"
  }

  function EventName(form: TerminForm): string {
    form.division + " | " + form.player1 + " vs. " + form.player2 + " | " + form.mode
  }

  function EventDescription(form: TerminForm): string {
    "Match in der " + form.division + " zwischen " + form.player1 + " und " + form.player2 + "."
  }

  /** The checks of `TerminModal.on_submit`, in their order, and what an accepted
      form produces. `parseDateTime` stands for `strptime(.., "%d.%m.%Y %H:%M")`. */
  function CheckTermin(form: TerminForm, players: map<string, string>, parseDateTime: string -> Option<int>)
    : (r: Result<Entry, TerminError>)
    ensures var parts := Split(Strip(form.dateTime));
      && (r == Err(FormatError) <==> |parts| < 2)
      && (r == Err(EntryFailed) <==> |parts| >= 2 && parseDateTime(parts[0] + " " + parts[1]).None?)
      && (r == Err(UnknownPlayer1(form.player1)) <==>
            |parts| >= 2 && parseDateTime(parts[0] + " " + parts[1]).Some? && PlayerKey(form.player1) !in players)
      && (r == Err(UnknownPlayer2(form.player2)) <==>
            |parts| >= 2 && parseDateTime(parts[0] + " " + parts[1]).Some?
            && PlayerKey(form.player1) in players && PlayerKey(form.player2) !in players)
      && (r.Ok? <==>
            |parts| >= 2 && parseDateTime(parts[0] + " " + parts[1]).Some?
            && PlayerKey(form.player1) in players && PlayerKey(form.player2) in players)
  {
    var parts := Split(Strip(form.dateTime));
    if |parts| < 2 then Err(FormatError)
    else
      var date, time := parts[0], parts[1];
      match parseDateTime(date + " " + time)
      case None => Err(EntryFailed)
      case Some(start) => CheckPlayers(form, players, date, time, start)
  }

  /** The second half of the checks: both players must be known, player 1
      first; then the event and the row of an accepted form. */
  function CheckPlayers(form: TerminForm, players: map<string, string>, date: string, time: string, start: int)
    : Result<Entry, TerminError>
  {
    var s1, s2 := PlayerKey(form.player1), PlayerKey(form.player2);
    if s1 !in players then Err(UnknownPlayer1(form.player1))
    else if s2 !in players then Err(UnknownPlayer2(form.player2))
    else
      var url := MultistreamUrl(players[s1], players[s2]);
      var event := ScheduledEvent(EventName(form), EventDescription(form), start, start + EVENT_MINUTES, url);
      Ok(Entry(event, [Strip(form.division), date, time, Strip(form.player1), Strip(form.player2), Strip(form.mode), url]))
  }

  /** An accepted form yields a seven-cell row whose date and time cells are
      single non-blank tokens that parse to the event's start, whose last cell
      is the multistream link of the two players' Twitch handles, and an event
      at that link lasting one hour. */
  lemma CheckTerminEntry(form: TerminForm, players: map<string, string>, parseDateTime: string -> Option<int>)
    requires CheckTermin(form, players, parseDateTime).Ok?
    ensures var entry := CheckTermin(form, players, parseDateTime).value;
      var row := entry.row;
      && |row| == 7
      && row[0] == Strip(form.division) && row[3] == Strip(form.player1)
      && row[4] == Strip(form.player2) && row[5] == Strip(form.mode)
      && row[1..3] == Split(Strip(form.dateTime))[..2]
      && row[1] != [] && NoSpace(row[1]) && row[2] != [] && NoSpace(row[2])
      && row[6] == MultistreamUrl(players[PlayerKey(form.player1)], players[PlayerKey(form.player2)])
      && entry.event.location == row[6]
      && parseDateTime(row[1] + " " + row[2]) == Some(entry.event.start)
      && entry.event.end == entry.event.start + EVENT_MINUTES
  {
    var parts := Split(Strip(form.dateTime));
    var start := parseDateTime(parts[0] + " " + parts[1]).value;
    assert CheckTermin(form, players, parseDateTime) == CheckPlayers(form, players, parts[0], parts[1], start);
  }

  /** A form filled in as "DD.MM.YYYY HH:MM" keeps exactly the typed date and
      time in the row, in columns B and C, whatever whitespace precedes or follows it. */
  lemma CheckTerminKeepsDateAndTime(form: TerminForm, players: map<string, string>,
                                    parseDateTime: string -> Option<int>, date: string, time: string,
                                    pre: string, post: string)
    requires date != [] && NoSpace(date) && time != [] && NoSpace(time) && AllSpace(pre) && AllSpace(post)
    requires form.dateTime == pre + date + " " + time + post
    requires CheckTermin(form, players, parseDateTime).Ok?
    ensures CheckTermin(form, players, parseDateTime).value.row[1..3] == [date, time]
  {
    CheckTerminEntry(form, players, parseDateTime);
    PaddedDateTimeSplit(date, time, pre, post);
    assert [date, time][..2] == [date, time];
  }

  lemma PaddedDateTimeSplit(date: string, time: string, pre: string, post: string)
    requires date != [] && NoSpace(date) && time != [] && NoSpace(time) && AllSpace(pre) && AllSpace(post)
    ensures Split(Strip(pre + date + " " + time + post)) == [date, time]
  {
    var s := date + " " + time;
    assert pre + date + " " + time + post == pre + s + post;
    SplitStrip(pre + s + post);
    SplitTrailingSpace(pre + s, post);
    assert TrimStart(pre + s) == s by {
      TrimStartPrefix(pre, s);
    }
    SplitTrimStart(pre + s);
    TwoTokensSplit(date, time);
  }

  lemma {:induction false} TrimStartPrefix(pad: string, s: string)
    requires AllSpace(pad)
    requires s == [] || !IsSpace(s[0])
    ensures TrimStart(pad + s) == s
  {
    if pad != [] {
      assert (pad + s)[1..] == pad[1..] + s;
      TrimStartPrefix(pad[1..], s);
    } else {
      assert pad + s == s;
    }
  }

  // ---------------------------------------------------------------------------
  // Reading the schedule sheet
  // ---------------------------------------------------------------------------

  /** The rows below the header (`daten[1:]`). */
  function DataRows(daten: seq<Row>): (rows: seq<Row>)
    ensures forall row :: row in rows <==> exists i :: 1 <= i < |daten| && daten[i] == row
  {
    if daten == [] then [] else daten[1..]
  }

  /** What a listing command replies with. */
  datatype Listing<T> =
    | NoMatches          // the "no games" reply
    | Listed(items: seq<T>)
    | Failed             // an exception reached the handler's catch-all

  /** A `/today` candidate: at least seven cells, and column B, stripped, is today's date. */
  predicate IsToday(row: Row, today: string) {
    |row| >= 7 && Strip(row[1]) == today
  }

  /** The list comprehension of `/today`. */
  function TodayRows(rows: seq<Row>, today: string): (r: seq<Row>)
    ensures forall row :: row in r <==> row in rows && IsToday(row, today)
  {
    if rows == [] then []
    else
      assert forall row :: row in rows <==> row == rows[0] || row in rows[1..];
      (if IsToday(rows[0], today) then [rows[0]] else []) + TodayRows(rows[1..], today)
  }

  /** `TodayRows` is a filter that keeps sheet order: the rows of two blocks
      are concatenated, and a single row gives itself or nothing. */
  lemma {:induction false} TodayRowsAppend(a: seq<Row>, b: seq<Row>, today: string)
    ensures TodayRows(a + b, today) == TodayRows(a, today) + TodayRows(b, today)
  {
    if a == [] {
      assert a + b == b;
    } else {
      assert (a + b)[0] == a[0];
      assert (a + b)[1..] == a[1..] + b;
      TodayRowsAppend(a[1..], b, today);
    }
  }

  lemma TodayRowsSingle(row: Row, today: string)
    ensures TodayRows([row], today) == if IsToday(row, today) then [row] else []
  {
    assert [row][1..] == [];
  }

  /** The `/today` sort key: (time, division), columns C and A. */
  function TimeDivision(row: Row): (string, string) {
    if |row| >= 3 then (row[2], row[0]) else ("", "")
  }

  /** `/today`: the sheet's rows for today's date (`today` formatted as
      `%d.%m.%Y`), ordered by time and then division. */
  function Today(daten: seq<Row>, today: string): (r: Listing<Row>)
    ensures !r.Failed?
    ensures r.Listed? ==> |r.items| == |TodayRows(DataRows(daten), today)| > 0
  {
    var matches := TodayRows(DataRows(daten), today);
    if matches == [] then NoMatches
    else
      var items := SortBy(matches, TimeDivision, PairLt);
      SortByMultiset(matches, TimeDivision, PairLt);
      assert |items| == |multiset(items)| == |multiset(matches)| == |matches|;
      Listed(items)
  }

  /** `/today` lists exactly the data rows of today's date: never the header
      row, never a row with fewer than seven cells. */
  lemma TodaySelects(daten: seq<Row>, today: string)
    ensures !Today(daten, today).Failed?
    ensures Today(daten, today).NoMatches? <==>
      forall i :: 1 <= i < |daten| ==> !IsToday(daten[i], today)
    ensures Today(daten, today).Listed? ==>
      forall row :: row in Today(daten, today).items <==>
        exists i :: 1 <= i < |daten| && daten[i] == row && IsToday(row, today)
  {
    var matches := TodayRows(DataRows(daten), today);
    if matches != [] {
      assert matches[0] in matches;
      var items := SortBy(matches, TimeDivision, PairLt);
      assert Today(daten, today) == Listed(items);
      SortByMultiset(matches, TimeDivision, PairLt);
      forall row
        ensures row in items <==> exists i :: 1 <= i < |daten| && daten[i] == row && IsToday(row, today)
      {
        assert row in items <==> row in multiset(items);
        assert row in matches <==> row in DataRows(daten) && IsToday(row, today);
      }
    } else {
      forall i | 1 <= i < |daten|
        ensures !IsToday(daten[i], today)
      {
        assert daten[i] in DataRows(daten);
      }
    }
  }

  /** `/today` orders its rows by (time, division) and keeps the sheet's order
      among rows with the same time and division. */
  lemma TodayOrder(daten: seq<Row>, today: string)
    ensures Today(daten, today).Listed? ==>
      var items := Today(daten, today).items;
      var matches := TodayRows(DataRows(daten), today);
      && multiset(items) == multiset(matches)
      && SortedBy(items, TimeDivision, PairLt)
      && forall k :: WithKey(items, TimeDivision, k) == WithKey(matches, TimeDivision, k)
  {
    var matches := TodayRows(DataRows(daten), today);
    if matches != [] {
      PairLtOrder();
      SortByMultiset(matches, TimeDivision, PairLt);
      SortBySorted(matches, TimeDivision, PairLt);
      forall k
        ensures WithKey(SortBy(matches, TimeDivision, PairLt), TimeDivision, k) == WithKey(matches, TimeDivision, k)
      {
        SortByStable(matches, TimeDivision, PairLt, k);
      }
    }
  }

  /** One row of a division listing: date, time and division (stripped), then
      the two players, the mode and the stream link. */
  datatype Match = Match(date: string, time: string, division: string,
                         player1: string, player2: string, mode: string, url: string)

  function Project(row: Row): Match
    requires |row| >= 7
  {
    Match(Strip(row[1]), Strip(row[2]), Strip(row[0]), row[3], row[4], row[5], row[6])
  }

  /** The date filter: both dates parse (`%d.%m.%Y`) and the row's is not before
      today's; a parse failure skips the row. */
  predicate NotBefore(date: string, today: string, parseDate: string -> Option<int>) {
    match (parseDate(date), parseDate(today))
    case (Some(d), Some(t)) => !(d < t)
    case _ => false
  }

  /** The division filter: absent or empty keeps every row. */
  predicate InDivision(division: string, filter: Option<string>) {
    !(filter.Some? && filter.value != "" && NormalizeDiv(division) != NormalizeDiv(filter.value))
  }

  predicate IsUpcoming(row: Row, today: string, filter: Option<string>, parseDate: string -> Option<int>) {
    |row| >= 7 && NotBefore(Strip(row[1]), today, parseDate) && InDivision(Strip(row[0]), filter)
  }

  /** The matches the loop of `zeige_geplante_spiele` collects, in sheet order. */
  function Upcoming(rows: seq<Row>, today: string, filter: Option<string>, parseDate: string -> Option<int>)
    : (r: seq<Match>)
    ensures forall m :: m in r <==>
      exists i :: 0 <= i < |rows| && IsUpcoming(rows[i], today, filter, parseDate) && m == Project(rows[i])
  {
    if rows == [] then []
    else
      var init, last := rows[..|rows| - 1], rows[|rows| - 1];
      var r := Upcoming(init, today, filter, parseDate)
        + (if IsUpcoming(last, today, filter, parseDate) then [Project(last)] else []);
      assert forall i :: 0 <= i < |init| ==> init[i] == rows[i];
      r
  }

  /** `Upcoming` keeps sheet order: the matches of two blocks of rows are
      concatenated, and a single row gives its projection or nothing. */
  lemma {:induction false} UpcomingAppend(a: seq<Row>, b: seq<Row>, today: string, filter: Option<string>,
                                          parseDate: string -> Option<int>)
    ensures Upcoming(a + b, today, filter, parseDate)
         == Upcoming(a, today, filter, parseDate) + Upcoming(b, today, filter, parseDate)
  {
    if b == [] {
      assert a + b == a;
    } else {
      var ab := a + b;
      assert ab[..|ab| - 1] == a + b[..|b| - 1];
      assert ab[|ab| - 1] == b[|b| - 1];
      UpcomingAppend(a, b[..|b| - 1], today, filter, parseDate);
    }
  }

  lemma UpcomingSingle(row: Row, today: string, filter: Option<string>, parseDate: string -> Option<int>)
    ensures Upcoming([row], today, filter, parseDate)
         == (if IsUpcoming(row, today, filter, parseDate) then [Project(row)] else [])
  {
    assert [row][..0] == [];
  }

  /** One more row extends the collected matches by that row's projection, or not at all. */
  lemma UpcomingStep(rows: seq<Row>, i: nat, today: string, filter: Option<string>, parseDate: string -> Option<int>)
    requires i < |rows|
    ensures Upcoming(rows[..i + 1], today, filter, parseDate)
         == Upcoming(rows[..i], today, filter, parseDate)
            + (if IsUpcoming(rows[i], today, filter, parseDate) then [Project(rows[i])] else [])
  {
    assert rows[..i + 1] == rows[..i] + [rows[i]];
    UpcomingAppend(rows[..i], [rows[i]], today, filter, parseDate);
    UpcomingSingle(rows[i], today, filter, parseDate);
  }

  /** The start of a match: date and time parsed together (`%d.%m.%Y %H:%M`). */
  function Start(m: Match, parseDateTime: string -> Option<int>): Option<int> {
    parseDateTime(m.date + " " + m.time)
  }

  function StartKey(parseDateTime: string -> Option<int>): Match -> int {
    m => match Start(m, parseDateTime) case Some(t) => t case None => 0
  }

  /** `matches.sort(key=...)` by start: the key is computed for every match
      first, and one that does not parse raises. */
  function SortByStart(matches: seq<Match>, parseDateTime: string -> Option<int>): (r: Listing<Match>)
    ensures !r.NoMatches?
    ensures r.Failed? <==> exists m :: m in matches && Start(m, parseDateTime).None?
    ensures r.Listed? ==> |r.items| == |matches| && multiset(r.items) == multiset(matches)
  {
    if exists i :: 0 <= i < |matches| && Start(matches[i], parseDateTime).None? then Failed
    else
      var items := SortBy(matches, StartKey(parseDateTime), IntLt);
      SortByMultiset(matches, StartKey(parseDateTime), IntLt);
      assert |items| == |multiset(items)| == |multiset(matches)| == |matches|;
      Listed(items)
  }

  /** What `zeige_geplante_spiele` replies with for the sheet `daten`. */
  function Planned(daten: seq<Row>, today: string, filter: Option<string>,
                   parseDate: string -> Option<int>, parseDateTime: string -> Option<int>): (r: Listing<Match>)
    ensures r.Listed? ==> |r.items| == |Upcoming(DataRows(daten), today, filter, parseDate)| > 0
  {
    var matches := Upcoming(DataRows(daten), today, filter, parseDate);
    if matches == [] then NoMatches else SortByStart(matches, parseDateTime)
  }

  /** `zeige_geplante_spiele` (behind `/div1`-`/div5`, `/cup` and `/alle`):
      collects the upcoming matches row by row, then sorts them by start. */
  method ShowPlanned(daten: seq<Row>, today: string, filter: Option<string>,
                     parseDate: string -> Option<int>, parseDateTime: string -> Option<int>)
    returns (listing: Listing<Match>)
    ensures listing == Planned(daten, today, filter, parseDate, parseDateTime)
  {
    var rows := DataRows(daten);
    var matches: seq<Match> := [];
    var i := 0;
    while i < |rows|
      invariant 0 <= i <= |rows|
      invariant matches == Upcoming(rows[..i], today, filter, parseDate)
    {
      UpcomingStep(rows, i, today, filter, parseDate);
      var row := rows[i];
      if |row| >= 7 {
        var date, time, division := Strip(row[1]), Strip(row[2]), Strip(row[0]);
        if NotBefore(date, today, parseDate) && InDivision(division, filter) {
          matches := matches + [Match(date, time, division, row[3], row[4], row[5], row[6])];
        }
      }
      i := i + 1;
    }
    assert rows[..i] == rows;
    if matches == [] {
      return NoMatches;
    }
    listing := SortByStart(matches, parseDateTime);
  }

  /** The matches collected from the data rows are the projections of the
      upcoming rows below the header. */
  lemma UpcomingOfSheet(daten: seq<Row>, today: string, filter: Option<string>, parseDate: string -> Option<int>)
    ensures forall m :: m in Upcoming(DataRows(daten), today, filter, parseDate) <==>
      exists i :: 1 <= i < |daten| && IsUpcoming(daten[i], today, filter, parseDate) && m == Project(daten[i])
  {
    var rows := DataRows(daten);
    var matches := Upcoming(rows, today, filter, parseDate);
    forall m | m in matches
      ensures exists i :: 1 <= i < |daten| && IsUpcoming(daten[i], today, filter, parseDate) && m == Project(daten[i])
    {
      var j :| 0 <= j < |rows| && IsUpcoming(rows[j], today, filter, parseDate) && m == Project(rows[j]);
      assert daten[j + 1] == rows[j];
    }
    forall i | 1 <= i < |daten| && IsUpcoming(daten[i], today, filter, parseDate)
      ensures Project(daten[i]) in matches
    {
      assert rows[i - 1] == daten[i];
    }
  }

  /** A division listing holds exactly the upcoming data rows of the division:
      never the header, a short row, a row whose date does not parse or is
      before today, or a row of another division. */
  lemma PlannedSelects(daten: seq<Row>, today: string, filter: Option<string>,
                       parseDate: string -> Option<int>, parseDateTime: string -> Option<int>)
    ensures var p := Planned(daten, today, filter, parseDate, parseDateTime);
      && (p.NoMatches? <==> forall i :: 1 <= i < |daten| ==> !IsUpcoming(daten[i], today, filter, parseDate))
      && (p.Listed? ==> forall m :: m in p.items <==>
            exists i :: 1 <= i < |daten| && IsUpcoming(daten[i], today, filter, parseDate) && m == Project(daten[i]))
  {
    var matches := Upcoming(DataRows(daten), today, filter, parseDate);
    UpcomingOfSheet(daten, today, filter, parseDate);
    if matches == [] {
      forall i | 1 <= i < |daten| && |daten[i]| >= 7
        ensures !IsUpcoming(daten[i], today, filter, parseDate)
      {
        assert Project(daten[i]) !in matches;
      }
    } else {
      assert matches[0] in matches;
      var p := Planned(daten, today, filter, parseDate, parseDateTime);
      if p.Listed? {
        forall m
          ensures m in p.items <==> m in matches
        {
          assert m in p.items <==> m in multiset(p.items);
        }
      }
    }
  }

  /** A division listing fails as a whole exactly when one of its upcoming
      matches has a date and time that do not parse together; otherwise it is
      ordered by start and keeps sheet order among matches with equal starts. */
  lemma PlannedOrder(daten: seq<Row>, today: string, filter: Option<string>,
                     parseDate: string -> Option<int>, parseDateTime: string -> Option<int>)
    ensures var p := Planned(daten, today, filter, parseDate, parseDateTime);
      var matches := Upcoming(DataRows(daten), today, filter, parseDate);
      && (p.Failed? <==> exists m :: m in matches && Start(m, parseDateTime).None?)
      && (p.Listed? ==>
            && (forall m :: m in p.items ==> Start(m, parseDateTime).Some?)
            && (forall i, j :: 0 <= i < j < |p.items| ==>
                  Start(p.items[i], parseDateTime).value <= Start(p.items[j], parseDateTime).value)
            && (forall t :: WithKey(p.items, StartKey(parseDateTime), t) == WithKey(matches, StartKey(parseDateTime), t)))
  {
    var matches := Upcoming(DataRows(daten), today, filter, parseDate);
    var p := Planned(daten, today, filter, parseDate, parseDateTime);
    if p.Listed? {
      var key := StartKey(parseDateTime);
      IntLtOrder();
      SortBySorted(matches, key, IntLt);
      forall m | m in p.items
        ensures Start(m, parseDateTime).Some?
      {
        assert m in multiset(p.items);
      }
      forall t
        ensures WithKey(p.items, key, t) == WithKey(matches, key, t)
      {
        SortByStable(matches, key, IntLt, t);
      }
    }
  }

  /** As written, one upcoming match whose time cell does not parse makes the
      whole listing fail, hiding every other match: the date filter skips rows
      whose date does not parse, but the sort key parses date and time together
      without such a guard. */
  lemma BadTimeHidesListing(header: Row, good: Row, bad: Row, today: string, filter: Option<string>,
                            parseDate: string -> Option<int>, parseDateTime: string -> Option<int>)
    requires IsUpcoming(good, today, filter, parseDate) && IsUpcoming(bad, today, filter, parseDate)
    requires Start(Project(good), parseDateTime).Some? && Start(Project(bad), parseDateTime).None?
    ensures Planned([header, good, bad], today, filter, parseDate, parseDateTime) == Failed
    ensures PlannedSkippingBadTimes([header, good, bad], today, filter, parseDate, parseDateTime)
         == Listed([Project(good)])
  {
    var daten := [header, good, bad];
    var pg, pb := Project(good), Project(bad);
    UpcomingOfTwo(header, good, bad, today, filter, parseDate);
    assert Start([pg, pb][1], parseDateTime).None?;
    assert Parsable([pg, pb], parseDateTime) == [pg] by {
      assert [pg, pb][1..] == [pb] && [pb][1..] == [];
      assert Parsable([pb], parseDateTime) == [] + Parsable([], parseDateTime);
    }
    assert SortBy([pg], StartKey(parseDateTime), IntLt) == [pg] by {
      assert [pg][..0] == [];
      assert SortBy([pg], StartKey(parseDateTime), IntLt)
          == Insert(pg, SortBy([], StartKey(parseDateTime), IntLt), StartKey(parseDateTime), IntLt);
    }
  }

  lemma UpcomingOfTwo(header: Row, good: Row, bad: Row, today: string, filter: Option<string>,
                      parseDate: string -> Option<int>)
    requires IsUpcoming(good, today, filter, parseDate) && IsUpcoming(bad, today, filter, parseDate)
    ensures Upcoming(DataRows([header, good, bad]), today, filter, parseDate) == [Project(good), Project(bad)]
  {
    assert DataRows([header, good, bad]) == [good, bad];
    assert [good, bad][..1] == [good] && [good][..0] == [];
    assert Upcoming([good], today, filter, parseDate) == [Project(good)] by {
      assert Upcoming([good], today, filter, parseDate) == Upcoming([], today, filter, parseDate) + [Project(good)];
    }
    assert Upcoming([good, bad], today, filter, parseDate)
        == Upcoming([good], today, filter, parseDate) + [Project(bad)];
  }

  /** The upcoming matches whose date and time parse together, in sheet order. */
  function Parsable(matches: seq<Match>, parseDateTime: string -> Option<int>): (r: seq<Match>)
    ensures forall m :: m in r <==> m in matches && Start(m, parseDateTime).Some?
  {
    if matches == [] then []
    else
      assert forall m :: m in matches <==> m == matches[0] || m in matches[1..];
      (if Start(matches[0], parseDateTime).Some? then [matches[0]] else []) + Parsable(matches[1..], parseDateTime)
  }

  /** The division listing as evidently intended: a match whose start does not
      parse is skipped like a row whose date does not parse. */
  function PlannedSkippingBadTimes(daten: seq<Row>, today: string, filter: Option<string>,
                                   parseDate: string -> Option<int>, parseDateTime: string -> Option<int>)
    : Listing<Match>
  {
    var matches := Parsable(Upcoming(DataRows(daten), today, filter, parseDate), parseDateTime);
    if matches == [] then NoMatches else Listed(SortBy(matches, StartKey(parseDateTime), IntLt))
  }

  /** The corrected listing never fails and lists every upcoming data row whose
      start parses, in order of start. */
  lemma PlannedSkippingBadTimesCorrect(daten: seq<Row>, today: string, filter: Option<string>,
                                       parseDate: string -> Option<int>, parseDateTime: string -> Option<int>)
    ensures var p := PlannedSkippingBadTimes(daten, today, filter, parseDate, parseDateTime);
      && !p.Failed?
      && (p.NoMatches? <==>
            forall i :: 1 <= i < |daten| && IsUpcoming(daten[i], today, filter, parseDate) ==>
              Start(Project(daten[i]), parseDateTime).None?)
      && (p.Listed? ==>
            && (forall m :: m in p.items <==>
                  (exists i :: 1 <= i < |daten| && IsUpcoming(daten[i], today, filter, parseDate) && m == Project(daten[i]))
                  && Start(m, parseDateTime).Some?)
            && (forall i, j :: 0 <= i < j < |p.items| ==>
                  Start(p.items[i], parseDateTime).value <= Start(p.items[j], parseDateTime).value)
            && var parsable := Parsable(Upcoming(DataRows(daten), today, filter, parseDate), parseDateTime);
               && multiset(p.items) == multiset(parsable)
               && (forall t :: WithKey(p.items, StartKey(parseDateTime), t) == WithKey(parsable, StartKey(parseDateTime), t)))
  {
    var upcoming := Upcoming(DataRows(daten), today, filter, parseDate);
    var matches := Parsable(upcoming, parseDateTime);
    var p := PlannedSkippingBadTimes(daten, today, filter, parseDate, parseDateTime);
    UpcomingOfSheet(daten, today, filter, parseDate);
    if matches == [] {
      forall i | 1 <= i < |daten| && IsUpcoming(daten[i], today, filter, parseDate)
        ensures Start(Project(daten[i]), parseDateTime).None?
      {
        assert Project(daten[i]) in upcoming;
        assert Project(daten[i]) !in matches;
      }
    } else {
      assert matches[0] in matches;
    }
    if p.Listed? {
      SortParsableByStart(matches, parseDateTime);
    }
  }

  /** Sorting matches whose starts all parse: a permutation, ascending by start,
      and stable among equal starts. */
  lemma SortParsableByStart(matches: seq<Match>, parseDateTime: string -> Option<int>)
    requires forall m :: m in matches ==> Start(m, parseDateTime).Some?
    ensures var items := SortBy(matches, StartKey(parseDateTime), IntLt);
      && multiset(items) == multiset(matches)
      && (forall m :: m in items <==> m in matches)
      && (forall i, j :: 0 <= i < j < |items| ==>
            Start(items[i], parseDateTime).value <= Start(items[j], parseDateTime).value)
      && (forall t :: WithKey(items, StartKey(parseDateTime), t) == WithKey(matches, StartKey(parseDateTime), t))
  {
    var items := SortBy(matches, StartKey(parseDateTime), IntLt);
    SortByMultiset(matches, StartKey(parseDateTime), IntLt);
    IntLtOrder();
    SortBySorted(matches, StartKey(parseDateTime), IntLt);
    forall m
      ensures m in items <==> m in matches
    {
      assert m in items <==> m in multiset(items);
    }
    forall i, j | 0 <= i < j < |items|
      ensures Start(items[i], parseDateTime).value <= Start(items[j], parseDateTime).value
    {
      assert items[i] in matches && items[j] in matches;
      assert !IntLt(StartKey(parseDateTime)(items[j]), StartKey(parseDateTime)(items[i]));
    }
    forall t
      ensures WithKey(items, StartKey(parseDateTime), t) == WithKey(matches, StartKey(parseDateTime), t)
    {
      SortByStable(matches, StartKey(parseDateTime), IntLt, t);
    }
  }

  /** Where the listing as written does not fail, the corrected one is the same. */
  lemma PlannedSkippingBadTimesAgrees(daten: seq<Row>, today: string, filter: Option<string>,
                                      parseDate: string -> Option<int>, parseDateTime: string -> Option<int>)
    requires !Planned(daten, today, filter, parseDate, parseDateTime).Failed?
    ensures PlannedSkippingBadTimes(daten, today, filter, parseDate, parseDateTime)
         == Planned(daten, today, filter, parseDate, parseDateTime)
  {
    ParsableAll(Upcoming(DataRows(daten), today, filter, parseDate), parseDateTime);
  }

  lemma {:induction false} ParsableAll(matches: seq<Match>, parseDateTime: string -> Option<int>)
    requires forall i :: 0 <= i < |matches| ==> Start(matches[i], parseDateTime).Some?
    ensures Parsable(matches, parseDateTime) == matches
  {
    if matches != [] {
      ParsableAll(matches[1..], parseDateTime);
    }
  }

  // ---------------------------------------------------------------------------
  // The bot's state: the player map, the schedule sheet and the created events
  // ---------------------------------------------------------------------------

  /** The reply a command sends. */
  datatype Reply =
    | EntryCreated
    | EntryRefused(reason: TerminError)
    | PlayerAdded(name: string, twitch: string)

  class Bot {
    /** `TWITCH_MAP`: typed player name (normalised) to Twitch handle. */
    var players: map<string, string>
    /** The "League & Cup Schedule" worksheet, header row first. */
    var sheet: seq<Row>
    /** The guild's scheduled events, in creation order. */
    var events: seq<ScheduledEvent>

    constructor (sheet: seq<Row>)
      ensures players == TWITCH_MAP && this.sheet == sheet && events == []
    {
      players := TWITCH_MAP;
      this.sheet := sheet;
      events := [];
    }

    /** `TerminModal.on_submit`: the early-return checks, then one event and one
        appended row; a refused form changes nothing. */
    method Submit(form: TerminForm, parseDateTime: string -> Option<int>) returns (reply: Reply)
      modifies this
      ensures players == old(players)
      ensures match CheckTermin(form, old(players), parseDateTime)
        case Ok(entry) =>
          && reply == EntryCreated
          && events == old(events) + [entry.event]
          && sheet == old(sheet) + [entry.row]
        case Err(e) =>
          && reply == EntryRefused(e)
          && events == old(events) && sheet == old(sheet)
    {
      var outcome := Check(form, parseDateTime);
      match outcome
      case Err(e) =>
        reply := EntryRefused(e);
      case Ok(entry) =>
        events := events + [entry.event];
        sheet := sheet + [entry.row];
        reply := EntryCreated;
    }

    /** The checks of `on_submit`, in order, with an early return for each
        refusal; on success, the event and the row to store. */
    method Check(form: TerminForm, parseDateTime: string -> Option<int>) returns (outcome: Result<Entry, TerminError>)
      ensures outcome == CheckTermin(form, players, parseDateTime)
    {
      var parts := Split(Strip(form.dateTime));
      if |parts| < 2 {
        return Err(FormatError);
      }
      var date, time := parts[0], parts[1];
      var parsed := parseDateTime(date + " " + time);
      if parsed.None? {
        return Err(EntryFailed);
      }
      outcome := CheckPlayersOf(form, date, time, parsed.value);
    }

    /** The player checks of `on_submit`, each with its own early return. */
    method CheckPlayersOf(form: TerminForm, date: string, time: string, start: int) returns (outcome: Result<Entry, TerminError>)
      ensures outcome == CheckPlayers(form, players, date, time, start)
    {
      var s1 := PlayerKey(form.player1);
      var s2 := PlayerKey(form.player2);
      if s1 !in players {
        return Err(UnknownPlayer1(form.player1));
      }
      if s2 !in players {
        return Err(UnknownPlayer2(form.player2));
      }
      var url := MultistreamUrl(players[s1], players[s2]);
      var event := ScheduledEvent(EventName(form), EventDescription(form), start, start + EVENT_MINUTES, url);
      var row := [Strip(form.division), date, time, Strip(form.player1), Strip(form.player2), Strip(form.mode), url];
      return Ok(Entry(event, row));
    }

    /** `/add`: registers (or re-points) one player and leaves every other entry alone. */
    method Add(name: string, twitch: string) returns (reply: Reply)
      modifies this
      ensures players == old(players)[PlayerKey(name) := Strip(twitch)]
      ensures sheet == old(sheet) && events == old(events)
      ensures reply == PlayerAdded(PlayerKey(name), Strip(twitch))
    {
      var key := PlayerKey(name);
      var handle := Strip(twitch);
      players := players[key := handle];
      reply := PlayerAdded(key, handle);
    }
  }

  /** After `/add name twitch`, a form naming that player, as typed for `/add`
      or as echoed in its reply, gets past the player check and streams from
      the handle given. */
  lemma AddedPlayerRecognised(players: map<string, string>, name: string, twitch: string,
                              form: TerminForm, parseDateTime: string -> Option<int>)
    requires form.player1 == name || form.player1 == PlayerKey(name)
    requires CheckTermin(form, players[PlayerKey(name) := Strip(twitch)], parseDateTime) != Err(FormatError)
    requires CheckTermin(form, players[PlayerKey(name) := Strip(twitch)], parseDateTime) != Err(EntryFailed)
    ensures var r := CheckTermin(form, players[PlayerKey(name) := Strip(twitch)], parseDateTime);
      && r != Err(UnknownPlayer1(form.player1))
      && (r.Ok? ==> r.value.row[6] == MultistreamUrl(Strip(twitch), (players[PlayerKey(name) := Strip(twitch)])[PlayerKey(form.player2)]))
  {
    PlayerKeyIdempotent(name);
  }

  /** A match entered for today shows up in `/today` (provided the sheet already
      has its header row). */
  lemma EnteredMatchListedToday(form: TerminForm, players: map<string, string>,
                                parseDateTime: string -> Option<int>, sheet: seq<Row>, today: string)
    requires |sheet| >= 1
    requires CheckTermin(form, players, parseDateTime).Ok?
    requires CheckTermin(form, players, parseDateTime).value.row[1] == today
    ensures var row := CheckTermin(form, players, parseDateTime).value.row;
      Today(sheet + [row], today).Listed? && row in Today(sheet + [row], today).items
  {
    var row := CheckTermin(form, players, parseDateTime).value.row;
    var daten := sheet + [row];
    CheckTerminEntry(form, players, parseDateTime);
    StripNoEdgeSpace(row[1]);
    assert IsToday(row, today);
    assert daten[|sheet|] == row;
    TodaySelects(daten, today);
  }
}

=== FILE: wrappers.dfy ===
/** Failure-carrying values used by the model: a parse that may fail, an
    operation that either produces a value or reports why it did not. */
module Wrappers {

  datatype Option<+T> = None | Some(value: T)

  datatype Result<+T, +E> = Ok(value: T) | Err(error: E)
}
